=== FILE: README.md ===
# simplefts inverted index, modelled in Dafny

This project models the search core of simplefts, a small full-text search
engine over Wikipedia abstracts. The model covers `index.go`:

- the inverted index, a map from token to a posting list of document IDs;
- `add`, which walks the documents in order and appends each document's ID
  to the list of every token of its text, skipping the append when the list
  already ends with that ID;
- `intersection`, a two-pointer merge of two ascending, duplicate-free lists;
- `search`, which analyzes a query, folds `intersection` over the posting
  lists of its tokens and returns nil as soon as a token is missing.

Layout:

- `wrappers.dfy` (`Wrappers`): `Option`. `None` stands for Go's nil slice.
- `document.dfy` (`Documents`): the document record, and the loop that
  numbers documents by position when they are loaded.
- `posting_lists.dfy` (`PostingLists`): `Merge` is the two-pointer merge as a
  recursive function, defined on any input, as the Go loop is. `Common` is an
  independent set-intersection reference. `Intersection` is the loop itself,
  proved equal to `Merge`. The lemmas prove that on strictly ascending inputs
  the merge is set intersection. They also prove that it is strictly
  ascending, commutative, associative and idempotent.
- `index_spec.dfy` (`IndexSpec`): `add` and `search` as functions over the map
  (`AddToken`, `AddTokens`, `AddDocs`, `Fold`, `SearchResult`), with the
  properties of the built index and of query results.
- `inverted_index.dfy` (`InvertedIndex`): the index as a class whose
  `postings` map `Add` updates in place and `Search` reads. Each method is
  proved equal to the specification function.

The tokenizer `analyze` is not part of this model. It is a parameter of type
`string -> seq<string>`: any total function. Nothing is assumed about
lowercasing, splitting or filtering. Callers are expected to pass the same
function to `Add` and `Search`; the search lemmas are about the map and do not
depend on it.

Three behaviours of the code worth noting:

- The code does not check that documents arrive in ascending ID order. The
  model's `Add` accepts any order. Strictly ascending posting lists are
  proved under that order as a hypothesis (`AddDocsAscending`).
- An empty query and a query with an unknown token both return nil in the
  code, not an empty list. The model returns `None` for both.
- Repeated query tokens are not deduplicated by the code. The model proves
  that over a well-formed index the result depends only on the set of query
  tokens, so repeating a token anywhere, or reordering the tokens, changes
  nothing (`SearchDependsOnTokenSet`).

## Model

| member | source | states |
|---|---|---|
| `PostingLists.Merge` | index.go:61-72 | on any inputs, the merge is no longer than either input, and every element it emits occurs in both |
| `PostingLists.Common` | index.go:53-54 | reference set intersection: `x` is in the result exactly when it is in `a` and in `b` |
| `PostingLists.Intersection` | index.go:55-74 | the loop returns `Merge(a, b)`; on strictly ascending inputs the result is strictly ascending and holds exactly the common elements; it is empty when either input is empty; `intersection(a, a) == a` |
| `PostingLists.MergeIsCommon` | index.go:53-72 | on strictly ascending inputs the two-pointer merge equals the set-intersection reference |
| `PostingLists.MergeAscending` | index.go:62-72 | a strictly ascending `a` gives a strictly ascending, duplicate-free merge, whatever `b` is |
| `PostingLists.MergeMembership` | index.go:53-55 | on strictly ascending inputs, `x` is in the intersection if and only if it is in both inputs |
| `PostingLists.MergeSelf` | index.go:67-70 | intersecting a list with itself returns it, whatever its order |
| `PostingLists.MergeCommutes` | index.go:62-72 | the merge is symmetric in its two arguments, on any inputs |
| `PostingLists.MergeAssociates` | index.go:53-74 | on strictly ascending inputs, intersecting in either grouping gives the same list |
| `PostingLists.AscendingExtensional` | index.go:53-54 | two strictly ascending lists with the same elements are equal, so a posting list is determined by its set of IDs |
| `IndexSpec.AddToken` | index.go:17-22 | after one token step the token is a key and its list ends with the ID; the map is unchanged exactly when the list already ended with the ID, and otherwise the list grows by exactly that ID; every other token keeps its list and its presence |
| `IndexSpec.AddTokens` | index.go:16-23 | no contract of its own: the left fold of `AddToken` over one document's tokens, in order; its properties are `AddTokensUntouched`, `AddTokensGrows`, `AddTokensOnce`, `AddTokensGrowth`, `AddTokensNonEmpty` and `AddTokensAscending` |
| `IndexSpec.AddDocs` | index.go:14-25 | no contract of its own: the left fold of `AddTokens` over the documents, in the order given, each with the tokens `analyze` yields for its text and its own ID; its properties are `AddDocsComplete`, `AddDocsSound`, `AddDocsUntouched`, `AddDocsNonEmpty` and `AddDocsAscending` |
| `IndexSpec.AddTokensUntouched` | index.go:16-23 | a document's tokens leave the list, and the presence, of every other token unchanged |
| `IndexSpec.AddTokensGrows` | index.go:16-23 | a document's tokens only extend lists (the old list is a prefix of the new one), and each of its tokens' lists then holds its ID |
| `IndexSpec.AddTokensOnce` | index.go:17-22 | a token repeated in one document adds that document's ID exactly once, when the list did not already end with it |
| `IndexSpec.AddTokensGrowth` | index.go:16-23 | the only ID a document can add to a list is its own, and only to its own tokens' lists |
| `IndexSpec.AddDocsComplete` | index.go:15-23 | after `add`, every document's ID is in the list of every token of its text |
| `IndexSpec.AddDocsSound` | index.go:15-23 | after `add`, every ID in a token's list was there before or belongs to a document whose text yields that token |
| `IndexSpec.AddDocsUntouched` | index.go:15-23 | a token that occurs in no added document keeps its list and its presence in the map |
| `IndexSpec.AddTokensNonEmpty` | index.go:18-22 | one document's tokens keep every stored list non-empty, so the last-element read stays in range |
| `IndexSpec.AddDocsNonEmpty` | index.go:14-25 | `add` only ever stores non-empty lists |
| `IndexSpec.AddTokenAscending` | index.go:17-22 | one token step keeps every list strictly ascending when every list ends at or below the ID |
| `IndexSpec.AddTokensAscending` | index.go:16-23 | one document keeps every list strictly ascending when every list ends at or below its ID |
| `IndexSpec.AddDocsAscending` | index.go:14-25 | with documents in strictly ascending ID order and every existing list ending below the first ID, every posting list stays non-empty and strictly ascending, ending at or below the last ID |
| `IndexSpec.BuildWellFormed` | index.go:14-25 | a fresh index built from documents numbered by position has only strictly ascending posting lists |
| `IndexSpec.Fold` | index.go:79-85 | the fold over present tokens stays nil exactly when there are no tokens |
| `IndexSpec.SearchResult` | index.go:77-92 | the search result is nil for an empty query and whenever a query token is missing |
| `IndexSpec.FoldIsAnd` | index.go:79-85 | over strictly ascending lists, the fold gives a strictly ascending list of exactly the IDs in every query token's list |
| `IndexSpec.SearchIsAnd` | index.go:77-92 | over a well-formed index, search is nil exactly when the query is empty or has a missing token; otherwise it is strictly ascending and holds exactly the IDs in every token's list |
| `IndexSpec.SearchDependsOnTokenSet` | index.go:79-85 | over a well-formed index, two queries with the same set of tokens give the same result, so repeats anywhere and reordering change nothing |
| `InvertedIndex.Index.constructor` | main.go:44 | `make(index)` gives an empty map, which is well-formed |
| `InvertedIndex.Index.Add` | index.go:14-25 | the new map is `AddDocs` of the old one; lists stay non-empty; lists stay strictly ascending under ascending document IDs |
| `InvertedIndex.Index.Insert` | index.go:17-22 | the new map is `AddToken` of the old one: append unless the list already ends with the ID |
| `InvertedIndex.Index.Search` | index.go:77-92 | the result is `SearchResult` of the analyzed query: nil for an empty query or a missing token; over a well-formed index, a strictly ascending list of exactly the IDs in every query token's list |
| `Documents.NumberDocuments` | document.go:41-43 | in place, each document gets its position as ID and keeps its other fields, so IDs are strictly ascending |

## Left out

- `saveIndex`, `loadIndex`, `saveDocs` and `loadDocs` (index.go:27-51, document.go:47-71): file I/O through gob encoding, a library outside this model.
- `loadDocuments` apart from its numbering loop (document.go:22-45): gzip and XML decoding are library calls. The numbering is modelled by `NumberDocuments` and used as the hypothesis of `BuildWellFormed`.
- `main` (main.go:9-65): flag parsing, logging, timing and the order of the I/O steps. In rebuild mode, `idx := make(index)` at main.go:44 declares a new variable, so the `idx` searched at main.go:58 stays nil. That is driver behaviour, not part of the core.
- The body of `analyze` and its filters are not part of this model. It is a parameter. So no concrete query result is stated. What the default query "Small wild cat" (main.go:14) matches depends on how `analyze` lowercases and splits.
- Go distinguishes a nil slice from an empty non-nil one; a Dafny sequence does not. A map entry holding an empty list is treated as nil. `Add` requires every stored list to be non-empty. This excludes the non-nil empty slice on which index.go:18 would panic. Because the model cannot tell the two apart, it also excludes a key bound to nil, which the `ids != nil` test at index.go:18 would handle. The only caller, on the fresh map from `make(index)` (main.go:44-45), has neither. In `search`, a present key bound to a nil list would leave `r` nil; the model has no such entries once `Add` has run.
- For a one-token query, `search` returns the index's own slice (index.go:82, 91), so the caller and the map share storage. With more tokens, the result is a fresh slice from `intersection` (index.go:60, 84). The model returns a value and does not capture this aliasing.
- Go's `int` is 64 bits wide; IDs here are unbounded integers. `add` and `intersection` never do arithmetic on IDs, only comparisons, so no wrap-around can arise.
- The capacity hint `make([]int, 0, maxLen)` at index.go:56-60 affects only allocation, not the result.
- The body of the inner loop of `add` is written as its own method, `Insert`, so that each step is proved on its own; both loops stay in `Add`.

=== FILE: document.dfy ===
/** The document record of document.go:13-18 and the ID numbering of document.go:41-43. */
module Documents {

  /** A Wikipedia abstract: only `text` and `id` matter to the index. */
  datatype Document = Document(title: string, url: string, text: string, id: int)

  /** Document IDs strictly increase along the sequence. */
  predicate IdsAscending(docs: seq<Document>) {
    forall i, j :: 0 <= i < j < |docs| ==> docs[i].id < docs[j].id
  }

  /** The numbering `loadDocuments` gives: the document at position `i` has ID `i`. */
  predicate NumberedByPosition(docs: seq<Document>) {
    forall i :: 0 <= i < |docs| ==> docs[i].id == i
  }

  /**
   * The loop of `loadDocuments` that sets each document's ID to its position,
   * in place; every other field is kept.
   */
  method NumberDocuments(docs: array<Document>)
    modifies docs
    ensures forall i :: 0 <= i < docs.Length ==> docs[i] == old(docs[i]).(id := i)
    ensures NumberedByPosition(docs[..]) && IdsAscending(docs[..])
  {
    var i := 0;
    while i < docs.Length
      invariant 0 <= i <= docs.Length
      invariant forall k :: 0 <= k < i ==> docs[k] == old(docs[k]).(id := k)
      invariant forall k :: i <= k < docs.Length ==> docs[k] == old(docs[k])
    {
      docs[i] := docs[i].(id := i);
      i := i + 1;
    }
  }
}

=== FILE: index_spec.dfy ===
/**
 * The inverted index of index.go as values: the map from token to posting
 * list (index.go:9), what `add` makes of it (index.go:14-25) and what
 * `search` returns from it (index.go:77-92), with the properties the engine
 * relies on.
 *
 * The analyzer, whose body is not part of this model, is a parameter: any
 * total function from text to a sequence of tokens.
 */
module IndexSpec {
  import opened Wrappers
  import opened PostingLists
  import opened Documents

  /** `type index map[string][]int`. */
  type Postings = map<string, seq<int>>

  /** The tokenizer `analyze`, used the same way for documents and queries. */
  type Analyzer = string -> seq<string>

  /** `idx[token]`: the posting list, or Go's nil (here empty) for a missing token. */
  function Lookup(m: Postings, t: string): seq<int> {
    if t in m then m[t] else []
  }

  function Last(s: seq<int>): int
    requires s != []
  {
    s[|s| - 1]
  }

  /** Every stored list is non-empty, so `ids != nil` means the token is a key. */
  predicate NonEmptyLists(m: Postings) {
    forall t :: t in m ==> m[t] != []
  }

  /** The posting-list invariant: every list non-empty and strictly ascending. */
  predicate WellFormed(m: Postings) {
    forall t :: t in m ==> m[t] != [] && StrictlyAscending(m[t])
  }

  /** Every list ends below `bound`, so every ID in it is below `bound`. */
  predicate EndsBelow(m: Postings, bound: int) {
    forall t :: t in m && m[t] != [] ==> Last(m[t]) < bound
  }

  // ---------------------------------------------------------------- add

  /**
   * The body of the inner loop of `add` (index.go:17-22): append `id` to the
   * token's list unless the list already ends with `id`.
   */
  function AddToken(m: Postings, token: string, id: int): (r: Postings)
    ensures token in r && Lookup(r, token) != [] && Last(Lookup(r, token)) == id
    ensures Lookup(r, token) == Lookup(m, token) || Lookup(r, token) == Lookup(m, token) + [id]
    ensures Lookup(m, token) == [] || Last(Lookup(m, token)) != id ==> Lookup(r, token) == Lookup(m, token) + [id]
    ensures Lookup(m, token) != [] && Last(Lookup(m, token)) == id ==> r == m
    ensures forall t :: t != token ==> (t in r <==> t in m) && Lookup(r, t) == Lookup(m, t)
  {
    var ids := Lookup(m, token);
    if ids != [] && Last(ids) == id then m else m[token := ids + [id]]
  }

  /** The inner loop of `add` over one document's tokens, in order. */
  function AddTokens(m: Postings, tokens: seq<string>, id: int): Postings {
    if tokens == [] then m
    else AddToken(AddTokens(m, tokens[..|tokens| - 1], id), tokens[|tokens| - 1], id)
  }

  /** `add` (index.go:14-25): the outer loop over the documents, in the order given. */
  function AddDocs(m: Postings, docs: seq<Document>, analyze: Analyzer): Postings {
    if docs == [] then m
    else
      var d := docs[|docs| - 1];
      AddTokens(AddDocs(m, docs[..|docs| - 1], analyze), analyze(d.text), d.id)
  }

  /** One more token: the fold over `tokens[..k + 1]` is one `AddToken` step past `tokens[..k]`. */
  lemma AddTokensStep(m: Postings, tokens: seq<string>, k: nat, id: int)
    requires k < |tokens|
    ensures AddTokens(m, tokens[..k + 1], id) == AddToken(AddTokens(m, tokens[..k], id), tokens[k], id)
  {
    assert tokens[..k + 1][..k] == tokens[..k];
  }

  /** `add` only ever stores non-empty lists. */
  lemma {:induction false} AddTokensNonEmpty(m: Postings, tokens: seq<string>, id: int)
    requires NonEmptyLists(m)
    ensures NonEmptyLists(AddTokens(m, tokens, id))
  {
    if tokens != [] {
      AddTokensNonEmpty(m, tokens[..|tokens| - 1], id);
    }
  }

  /** `add` only ever stores non-empty lists. */
  lemma {:induction false} AddDocsNonEmpty(m: Postings, docs: seq<Document>, analyze: Analyzer)
    requires NonEmptyLists(m)
    ensures NonEmptyLists(AddDocs(m, docs, analyze))
  {
    if docs != [] {
      var d := docs[|docs| - 1];
      AddDocsNonEmpty(m, docs[..|docs| - 1], analyze);
      AddTokensNonEmpty(AddDocs(m, docs[..|docs| - 1], analyze), analyze(d.text), d.id);
    }
  }

  /** One more document: the fold over `docs[..n + 1]` is the tokens of `docs[n]` past `docs[..n]`. */
  lemma AddDocsStep(m: Postings, docs: seq<Document>, n: nat, analyze: Analyzer)
    requires n < |docs|
    ensures AddDocs(m, docs[..n + 1], analyze) == AddTokens(AddDocs(m, docs[..n], analyze), analyze(docs[n].text), docs[n].id)
  {
    assert docs[..n + 1][..n] == docs[..n];
  }

  /** A document's tokens leave the list (and the presence) of every other token as it was. */
  lemma {:induction false} AddTokensUntouched(m: Postings, tokens: seq<string>, id: int, t: string)
    requires t !in tokens
    ensures Lookup(AddTokens(m, tokens, id), t) == Lookup(m, t)
    ensures t in AddTokens(m, tokens, id) <==> t in m
  {
    if tokens != [] {
      var front := tokens[..|tokens| - 1];
      assert tokens == front + [tokens[|tokens| - 1]];
      AddTokensUntouched(m, front, id, t);
    }
  }

  /**
   * One document's tokens only extend lists, and afterwards the list of each
   * of its tokens holds its ID.
   */
  lemma {:induction false} AddTokensGrows(m: Postings, tokens: seq<string>, id: int, t: string)
    ensures Lookup(m, t) <= Lookup(AddTokens(m, tokens, id), t)
    ensures t in tokens ==> id in Lookup(AddTokens(m, tokens, id), t)
  {
    if tokens != [] {
      var front, last := tokens[..|tokens| - 1], tokens[|tokens| - 1];
      AddTokensGrows(m, front, id, t);
      assert tokens == front + [last];
    }
  }

  /** Token `t` occurs in the text of some document of `docs` whose ID is `x`. */
  predicate Mentions(docs: seq<Document>, analyze: Analyzer, t: string, x: int) {
    exists i :: 0 <= i < |docs| && docs[i].id == x && t in analyze(docs[i].text)
  }

  /** Token `t` occurs in the text of some document of `docs`. */
  predicate Occurs(docs: seq<Document>, analyze: Analyzer, t: string) {
    exists i :: 0 <= i < |docs| && t in analyze(docs[i].text)
  }

  /**
   * Within one document the ID is appended at most once per token: if the
   * token's list does not already end with the ID, it gains exactly one copy
   * of it, however often the token repeats in the document.
   */
  lemma {:induction false} AddTokensOnce(m: Postings, tokens: seq<string>, id: int, t: string)
    requires t in tokens
    requires Lookup(m, t) == [] || Last(Lookup(m, t)) != id
    ensures Lookup(AddTokens(m, tokens, id), t) == Lookup(m, t) + [id]
  {
    var front, last := tokens[..|tokens| - 1], tokens[|tokens| - 1];
    var prev := AddTokens(m, front, id);
    assert tokens == front + [last];
    if t in front {
      AddTokensOnce(m, front, id, t);
    } else {
      AddTokensUntouched(m, front, id, t);
    }
  }

  /** After `add`, each document's ID is in the list of each of its tokens. */
  lemma {:induction false} AddDocsComplete(m: Postings, docs: seq<Document>, analyze: Analyzer)
    ensures forall i, t :: 0 <= i < |docs| && t in analyze(docs[i].text) ==>
              docs[i].id in Lookup(AddDocs(m, docs, analyze), t)
  {
    if docs != [] {
      var front, d := docs[..|docs| - 1], docs[|docs| - 1];
      AddDocsComplete(m, front, analyze);
      var prev := AddDocs(m, front, analyze);
      forall i, t | 0 <= i < |docs| && t in analyze(docs[i].text)
        ensures docs[i].id in Lookup(AddDocs(m, docs, analyze), t)
      {
        if i == |docs| - 1 {
          AddTokensGrows(prev, analyze(d.text), d.id, t);
        } else {
          assert docs[i] == front[i];
          AddTokensGrows(prev, analyze(d.text), d.id, t);
        }
      }
    }
  }

  /**
   * After `add`, every ID in a token's list was there before or belongs to a
   * document whose text yields that token.
   */
  lemma {:induction false} AddDocsSound(m: Postings, docs: seq<Document>, analyze: Analyzer)
    ensures forall t, x :: x in Lookup(AddDocs(m, docs, analyze), t) ==>
              x in Lookup(m, t) || Mentions(docs, analyze, t, x)
  {
    if docs != [] {
      var front, d := docs[..|docs| - 1], docs[|docs| - 1];
      AddDocsSound(m, front, analyze);
      var prev := AddDocs(m, front, analyze);
      forall t, x | x in Lookup(AddDocs(m, docs, analyze), t)
        ensures x in Lookup(m, t) || Mentions(docs, analyze, t, x)
      {
        AddTokensGrowth(prev, analyze(d.text), d.id, t, x);
        if x in Lookup(prev, t) {
          if Mentions(front, analyze, t, x) {
            var i :| 0 <= i < |front| && front[i].id == x && t in analyze(front[i].text);
            assert docs[i] == front[i];
          }
        } else {
          assert docs[|docs| - 1] == d;
        }
      }
    }
  }

  /** What one document's tokens add to a list: only its own ID, and only for its tokens. */
  lemma {:induction false} AddTokensGrowth(m: Postings, tokens: seq<string>, id: int, t: string, x: int)
    requires x in Lookup(AddTokens(m, tokens, id), t)
    ensures x in Lookup(m, t) || (x == id && t in tokens)
  {
    if tokens != [] {
      var front, last := tokens[..|tokens| - 1], tokens[|tokens| - 1];
      var prev := AddTokens(m, front, id);
      if x in Lookup(prev, t) {
        AddTokensGrowth(m, front, id, t, x);
        if t in front {
          assert t in tokens;
        }
      } else {
        assert t == last;
      }
    }
  }

  /** `add` leaves the list of a token that occurs in no added document as it was. */
  lemma {:induction false} AddDocsUntouched(m: Postings, docs: seq<Document>, analyze: Analyzer, t: string)
    requires !Occurs(docs, analyze, t)
    ensures Lookup(AddDocs(m, docs, analyze), t) == Lookup(m, t)
    ensures t in AddDocs(m, docs, analyze) <==> t in m
  {
    if docs != [] {
      var front, d := docs[..|docs| - 1], docs[|docs| - 1];
      assert forall i :: 0 <= i < |front| ==> front[i] == docs[i];
      AddDocsUntouched(m, front, analyze, t);
      assert t !in analyze(d.text) by {
        assert docs[|docs| - 1] == d;
      }
      AddTokensUntouched(AddDocs(m, front, analyze), analyze(d.text), d.id, t);
    }
  }

  /** One token step keeps the invariant, given every list ends at or below `id`. */
  lemma AddTokenAscending(m: Postings, token: string, id: int)
    requires WellFormed(m) && EndsBelow(m, id + 1)
    ensures WellFormed(AddToken(m, token, id)) && EndsBelow(AddToken(m, token, id), id + 1)
  {
  }


  /** One document's tokens keep the invariant. */
  lemma {:induction false} AddTokensAscending(m: Postings, tokens: seq<string>, id: int)
    requires WellFormed(m) && EndsBelow(m, id + 1)
    ensures WellFormed(AddTokens(m, tokens, id)) && EndsBelow(AddTokens(m, tokens, id), id + 1)
  {
    if tokens != [] {
      AddTokensAscending(m, tokens[..|tokens| - 1], id);
      AddTokenAscending(AddTokens(m, tokens[..|tokens| - 1], id), tokens[|tokens| - 1], id);
    }
  }

  /**
   * `add` keeps every posting list strictly ascending when the documents come
   * in strictly ascending ID order and every existing list ends below the
   * first document's ID; afterwards every list ends at or below the last ID.
   */
  lemma {:induction false} AddDocsAscending(m: Postings, docs: seq<Document>, analyze: Analyzer)
    requires WellFormed(m) && IdsAscending(docs)
    requires docs != [] ==> EndsBelow(m, docs[0].id)
    ensures WellFormed(AddDocs(m, docs, analyze))
    ensures docs != [] ==> EndsBelow(AddDocs(m, docs, analyze), docs[|docs| - 1].id + 1)
  {
    if docs != [] {
      var front, d := docs[..|docs| - 1], docs[|docs| - 1];
      AddDocsAscending(m, front, analyze);
      var prev := AddDocs(m, front, analyze);
      if front != [] {
        assert front[|front| - 1] == docs[|docs| - 2];
      }
      AddTokensAscending(prev, analyze(d.text), d.id);
    }
  }

  /**
   * Building a fresh index from documents numbered by position, as
   * `loadDocuments` numbers them, gives strictly ascending posting lists.
   */
  lemma BuildWellFormed(docs: seq<Document>, analyze: Analyzer)
    requires NumberedByPosition(docs)
    ensures WellFormed(AddDocs(map[], docs, analyze))
  {
    AddDocsAscending(map[], docs, analyze);
  }

  // ------------------------------------------------------------- search

  /** Every query token is a key of the index. */
  predicate AllPresent(m: Postings, tokens: seq<string>) {
    forall t :: t in tokens ==> t in m
  }

  /** `x` is in the posting list of every token. */
  predicate InEvery(m: Postings, tokens: seq<string>, x: int)
    requires AllPresent(m, tokens)
  {
    forall t :: t in tokens ==> x in m[t]
  }

  /**
   * The loop of `search` when every token is present (index.go:79-85):
   * `r` starts nil, takes the first list, then is intersected with each
   * following list in turn.
   */
  function Fold(m: Postings, tokens: seq<string>): (r: Option<seq<int>>)
    requires AllPresent(m, tokens)
    ensures r.None? <==> tokens == []
  {
    if tokens == [] then None
    else
      var prev := Fold(m, tokens[..|tokens| - 1]);
      var ids := m[tokens[|tokens| - 1]];
      Some(if prev.None? then ids else Merge(prev.value, ids))
  }

  /** `search` on the analyzed query: nil as soon as a token is missing (index.go:86-88). */
  function SearchResult(m: Postings, tokens: seq<string>): (r: Option<seq<int>>)
    ensures tokens == [] ==> r == None
    ensures !AllPresent(m, tokens) ==> r == None
  {
    if AllPresent(m, tokens) then Fold(m, tokens) else None
  }

  /**
   * AND semantics: over strictly ascending lists, a query whose tokens are all
   * present yields a strictly ascending list holding exactly the IDs that lie
   * in every token's list.
   */
  lemma {:induction false} FoldIsAnd(m: Postings, tokens: seq<string>)
    requires WellFormed(m) && AllPresent(m, tokens) && tokens != []
    ensures StrictlyAscending(Fold(m, tokens).value)
    ensures forall x :: x in Fold(m, tokens).value <==> InEvery(m, tokens, x)
  {
    var front, last := tokens[..|tokens| - 1], tokens[|tokens| - 1];
    assert forall t :: t in tokens <==> t in front || t == last;
    if front == [] {
      assert forall t :: t in tokens ==> t == last;
    } else {
      FoldIsAnd(m, front);
      var prev := Fold(m, front).value;
      MergeAscending(prev, m[last]);
      forall x
        ensures x in Fold(m, tokens).value <==> InEvery(m, tokens, x)
      {
        MergeMembership(prev, m[last], x);
      }
    }
  }

  /**
   * What `search` returns, over a well-formed index: nil exactly when the
   * query has no tokens or one is missing; otherwise the strictly ascending
   * list of the IDs in every query token's list.
   */
  lemma SearchIsAnd(m: Postings, tokens: seq<string>)
    requires WellFormed(m)
    ensures SearchResult(m, tokens).None? <==> tokens == [] || !AllPresent(m, tokens)
    ensures SearchResult(m, tokens).Some? ==>
              AllPresent(m, tokens) &&
              StrictlyAscending(SearchResult(m, tokens).value) &&
              forall x :: x in SearchResult(m, tokens).value <==> InEvery(m, tokens, x)
  {
    if tokens != [] && AllPresent(m, tokens) {
      FoldIsAnd(m, tokens);
    }
  }

  /**
   * Over a well-formed index, the result depends only on the set of query
   * tokens: repeating a token anywhere, or reordering the tokens, changes
   * nothing.
   */
  lemma SearchDependsOnTokenSet(m: Postings, tokens: seq<string>, tokens': seq<string>)
    requires WellFormed(m)
    requires forall u :: u in tokens <==> u in tokens'
    ensures SearchResult(m, tokens) == SearchResult(m, tokens')
  {
    SearchIsAnd(m, tokens);
    SearchIsAnd(m, tokens');
    if tokens != [] {
      assert tokens[0] in tokens';
    }
    if tokens' != [] {
      assert tokens'[0] in tokens;
    }
    if SearchResult(m, tokens).Some? && SearchResult(m, tokens').Some? {
      AscendingExtensional(SearchResult(m, tokens).value, SearchResult(m, tokens').value);
    }
  }
}

=== FILE: inverted_index.dfy ===
/**
 * The inverted index object of index.go: a map that `add` updates in place
 * (index.go:14-25) and that `search` reads (index.go:77-92).
 */
module InvertedIndex {
  import opened Wrappers
  import opened PostingLists
  import opened Documents
  import opened IndexSpec

  class Index {
    /** The map from token to posting list. */
    var postings: Postings

    /** `make(index)`: a fresh, empty index. */
    constructor ()
      ensures postings == map[] && WellFormed(postings)
    {
      postings := map[];
    }

    /**
     * `add`: for each document in order and each token of its text, append
     * the document's ID to the token's list unless the list already ends
     * with it. Reading the last element of a present list needs every list
     * to be non-empty; `add` itself only ever stores non-empty lists.
     */
    method Add(docs: seq<Document>, analyze: Analyzer)
      requires NonEmptyLists(postings)
      modifies this
      ensures postings == AddDocs(old(postings), docs, analyze)
      ensures NonEmptyLists(postings)
      ensures (WellFormed(old(postings)) && IdsAscending(docs) &&
               (docs != [] ==> EndsBelow(old(postings), docs[0].id))) ==> WellFormed(postings)
    {
      var n := 0;
      while n < |docs|
        invariant 0 <= n <= |docs|
        invariant postings == AddDocs(old(postings), docs[..n], analyze)
      {
        var doc := docs[n];
        var tokens := analyze(doc.text);
        ghost var before := postings;
        var k := 0;
        while k < |tokens|
          invariant 0 <= k <= |tokens|
          invariant postings == AddTokens(before, tokens[..k], doc.id)
        {
          Insert(tokens[k], doc.id);
          AddTokensStep(before, tokens, k, doc.id);
          k := k + 1;
        }
        assert tokens[..k] == tokens;
        AddDocsStep(old(postings), docs, n, analyze);
        n := n + 1;
      }
      assert docs[..n] == docs;
      AddDocsNonEmpty(old(postings), docs, analyze);
      if WellFormed(old(postings)) && IdsAscending(docs) && (docs != [] ==> EndsBelow(old(postings), docs[0].id)) {
        AddDocsAscending(old(postings), docs, analyze);
      }
    }

    /**
     * The body of the inner loop of `add` (index.go:17-22): `idx[token]` is
     * nil (here empty) for a missing token; the ID is appended unless the
     * list already ends with it.
     */
    method Insert(token: string, id: int)
      modifies this
      ensures postings == AddToken(old(postings), token, id)
    {
      var ids := if token in postings then postings[token] else [];
      if ids == [] || ids[|ids| - 1] != id {
        postings := postings[token := ids + [id]];
      }
    }

    /**
     * `search`: analyze the query and fold `intersection` over the lists of
     * its tokens, with `None` for Go's nil result; nil as soon as a token is
     * not in the index.
     */
    method Search(text: string, analyze: Analyzer) returns (r: Option<seq<int>>)
      ensures r == SearchResult(postings, analyze(text))
      ensures analyze(text) == [] ==> r == None
      ensures !AllPresent(postings, analyze(text)) ==> r == None
      ensures WellFormed(postings) && r.Some? ==>
                StrictlyAscending(r.value) &&
                forall x :: x in r.value <==> InEvery(postings, analyze(text), x)
    {
      var tokens := analyze(text);
      r := None;
      var k := 0;
      assert tokens[..k] == [];
      while k < |tokens|
        invariant 0 <= k <= |tokens|
        invariant AllPresent(postings, tokens[..k])
        invariant r == Fold(postings, tokens[..k])
      {
        var token := tokens[k];
        assert tokens[..k + 1][..k] == tokens[..k];
        if token in postings {
          var ids := postings[token];
          if r == None {
            r := Some(ids);
          } else {
            var both := Intersection(r.value, ids);
            r := Some(both);
          }
        } else {
          // The token is not in the index.
          assert token in tokens;
          return None;
        }
        k := k + 1;
      }
      assert tokens[..k] == tokens;
      if WellFormed(postings) {
        SearchIsAnd(postings, tokens);
      }
    }
  }
}

=== FILE: posting_lists.dfy ===
/**
 * Posting lists and their intersection (index.go:53-74).
 *
 * A posting list is a sequence of document IDs. `Merge` is the two-pointer
 * merge of `intersection` written as a recursive function, defined for ANY
 * two inputs, just as the Go loop runs on any two slices. `Common` is the
 * independent reference: the elements of `a` that also occur in `b`. For the
 * strictly ascending inputs the Go doc-comment asks for, the two agree, and
 * from that follow set-intersection correctness, sortedness, commutativity
 * and associativity.
 */
module PostingLists {

  /** Strictly ascending: ascending and free of duplicates. */
  predicate StrictlyAscending(s: seq<int>) {
    forall i, j :: 0 <= i < j < |s| ==> s[i] < s[j]
  }

  /** The result of the two-pointer merge of index.go:61-72 on any inputs. */
  function Merge(a: seq<int>, b: seq<int>): (r: seq<int>)
    ensures |r| <= |a| && |r| <= |b|
    ensures forall x :: x in r ==> x in a && x in b
    decreases |a| + |b|
  {
    if a == [] || b == [] then []
    else if a[0] < b[0] then Merge(a[1..], b)
    else if a[0] > b[0] then Merge(a, b[1..])
    else [a[0]] + Merge(a[1..], b[1..])
  }

  /** Set intersection as a filter: the elements of `a`, in order, that occur in `b`. */
  function Common(a: seq<int>, b: seq<int>): (r: seq<int>)
    ensures forall x :: x in r <==> x in a && x in b
  {
    if a == [] then []
    else (if a[0] in b then [a[0]] else []) + Common(a[1..], b)
  }

  /**
   * `intersection(a, b)`: advance the pointer at the smaller element, emit
   * and advance both on equality. The result is `Merge(a, b)`, and on
   * strictly ascending inputs it is their set intersection, strictly ascending.
   */
  method Intersection(a: seq<int>, b: seq<int>) returns (r: seq<int>)
    ensures r == Merge(a, b)
    ensures StrictlyAscending(a) && StrictlyAscending(b) ==>
              StrictlyAscending(r) && forall x :: x in r <==> x in a && x in b
    ensures a == [] || b == [] ==> r == []
    ensures a == b ==> r == a
  {
    r := [];
    var i, j := 0, 0;
    while i < |a| && j < |b|
      invariant 0 <= i <= |a| && 0 <= j <= |b|
      invariant r + Merge(a[i..], b[j..]) == Merge(a, b)
      decreases |a| - i + |b| - j
    {
      assert a[i..][1..] == a[i + 1..] && b[j..][1..] == b[j + 1..];
      if a[i] < b[j] {
        i := i + 1;
      } else if a[i] > b[j] {
        j := j + 1;
      } else {
        r := r + [a[i]];
        i, j := i + 1, j + 1;
      }
    }
    if StrictlyAscending(a) && StrictlyAscending(b) {
      MergeAscending(a, b);
      MergeIsCommon(a, b);
    }
    MergeSelf(a);
  }

  /** Prepending an element smaller than every element keeps a list strictly ascending. */
  lemma AscendingCons(x: int, s: seq<int>)
    requires StrictlyAscending(s)
    requires forall y :: y in s ==> x < y
    ensures StrictlyAscending([x] + s)
  {
    forall i, j | 0 <= i < j < |[x] + s|
      ensures ([x] + s)[i] < ([x] + s)[j]
    {
      if i > 0 {
        assert ([x] + s)[i] == s[i - 1];
      }
      assert ([x] + s)[j] == s[j - 1] && s[j - 1] in s;
    }
  }

  /** In a strictly ascending list the head is the least element and the tail holds all others. */
  lemma AscendingSplit(s: seq<int>, x: int)
    requires StrictlyAscending(s) && s != []
    ensures x in s ==> s[0] <= x
    ensures x in s[1..] <==> x in s && x != s[0]
  {
  }


  /** Two strictly ascending lists with the same elements are the same list. */
  lemma {:induction false} AscendingExtensional(s: seq<int>, t: seq<int>)
    requires StrictlyAscending(s) && StrictlyAscending(t)
    requires forall x :: x in s <==> x in t
    ensures s == t
    decreases |s|
  {
    assert s != [] ==> s[0] in s;
    assert t != [] ==> t[0] in t;
    if s != [] && t != [] {
      AscendingSplit(s, t[0]);
      AscendingSplit(t, s[0]);
      forall x
        ensures x in s[1..] <==> x in t[1..]
      {
        AscendingSplit(s, x);
        AscendingSplit(t, x);
      }
      AscendingExtensional(s[1..], t[1..]);
      assert s == [s[0]] + s[1..] && t == [t[0]] + t[1..];
    }
  }

  /** `Common(a, b)` depends on `b` only through which elements of `a` it holds. */
  lemma {:induction false} CommonSameOn(a: seq<int>, b: seq<int>, b': seq<int>)
    requires forall i :: 0 <= i < |a| ==> (a[i] in b <==> a[i] in b')
    ensures Common(a, b) == Common(a, b')
  {
    if a != [] {
      assert forall i :: 0 <= i < |a[1..]| ==> a[1..][i] == a[i + 1];
      CommonSameOn(a[1..], b, b');
    }
  }

  /** Nothing is common with the empty list. */
  lemma {:induction false} CommonOfEmpty(a: seq<int>)
    ensures Common(a, []) == []
  {
    if a != [] {
      CommonOfEmpty(a[1..]);
    }
  }

  /** On strictly ascending inputs the merge computes the set intersection. */
  lemma {:induction false} MergeIsCommon(a: seq<int>, b: seq<int>)
    requires StrictlyAscending(a) && StrictlyAscending(b)
    ensures Merge(a, b) == Common(a, b)
    decreases |a| + |b|
  {
    if a == [] {
    } else if b == [] {
      CommonOfEmpty(a);
    } else if a[0] < b[0] {
      assert a[0] !in b;
      MergeIsCommon(a[1..], b);
    } else if a[0] > b[0] {
      assert b[0] !in a;
      MergeIsCommon(a, b[1..]);
      CommonSameOn(a, b[1..], b);
    } else {
      MergeIsCommon(a[1..], b[1..]);
      assert b[0] !in a[1..];
      assert b == [b[0]] + b[1..];
      CommonSameOn(a[1..], b[1..], b);
    }
  }

  /** The merge keeps the order of `a`: if `a` is strictly ascending, so is the result. */
  lemma {:induction false} MergeAscending(a: seq<int>, b: seq<int>)
    requires StrictlyAscending(a)
    ensures StrictlyAscending(Merge(a, b))
    decreases |a| + |b|
  {
    if a == [] || b == [] {
    } else if a[0] < b[0] {
      MergeAscending(a[1..], b);
    } else if a[0] > b[0] {
      MergeAscending(a, b[1..]);
    } else {
      var tail := Merge(a[1..], b[1..]);
      MergeAscending(a[1..], b[1..]);
      forall y | y in tail
        ensures a[0] < y
      {
        var k :| 0 <= k < |a[1..]| && a[1..][k] == y;
      }
      AscendingCons(a[0], tail);
    }
  }

  /** For strictly ascending inputs, `x` is in the intersection exactly when it is in both. */
  lemma {:induction false} MergeMembership(a: seq<int>, b: seq<int>, x: int)
    requires StrictlyAscending(a) && StrictlyAscending(b)
    ensures x in Merge(a, b) <==> x in a && x in b
  {
    MergeIsCommon(a, b);
  }

  /** Intersecting a list with itself gives the list back, on any input. */
  lemma {:induction false} MergeSelf(a: seq<int>)
    ensures Merge(a, a) == a
  {
    if a != [] {
      MergeSelf(a[1..]);
      assert a == [a[0]] + a[1..];
    }
  }

  /** The merge is symmetric in its arguments, on any input. */
  lemma {:induction false} MergeCommutes(a: seq<int>, b: seq<int>)
    ensures Merge(a, b) == Merge(b, a)
    decreases |a| + |b|
  {
    if a == [] || b == [] {
    } else if a[0] < b[0] {
      MergeCommutes(a[1..], b);
    } else if a[0] > b[0] {
      MergeCommutes(a, b[1..]);
    } else {
      MergeCommutes(a[1..], b[1..]);
    }
  }

  /** On strictly ascending inputs the merge is associative. */
  lemma {:induction false} MergeAssociates(a: seq<int>, b: seq<int>, c: seq<int>)
    requires StrictlyAscending(a) && StrictlyAscending(b) && StrictlyAscending(c)
    ensures Merge(Merge(a, b), c) == Merge(a, Merge(b, c))
  {
    var ab, bc := Merge(a, b), Merge(b, c);
    MergeAscending(a, b);
    MergeAscending(b, c);
    MergeAscending(ab, c);
    MergeAscending(a, bc);
    forall x
      ensures x in Merge(ab, c) <==> x in Merge(a, bc)
    {
      MergeMembership(a, b, x);
      MergeMembership(b, c, x);
      MergeMembership(ab, c, x);
      MergeMembership(a, bc, x);
    }
    AscendingExtensional(Merge(ab, c), Merge(a, bc));
  }
}

=== FILE: wrappers.dfy ===
/** Option, used where the Go code distinguishes a nil slice from a non-nil one. */
module Wrappers {

  datatype Option<+T> = None | Some(value: T)
}
